=== FILE: README.md ===
# Dgraph Zero startup and shutdown — a Dafny model

This project models the decision logic of `run` in `dgraph/cmd/zero/run.go`.
That function starts Dgraph's Zero coordinator. The model has three sequential parts:

- **Startup** (`startup.dfy`, with `decimal.dfy` for the listener address).
  This part covers:
  - the fatal flag checks: `idx` 0, an enterprise licence on an OSS build, a replica count that is not positive and odd, a rebalance interval that is not positive;
  - the bind address, the advertised `my` address, and the gRPC and HTTP listener addresses, formatted as `addr:port`;
  - the split of the cache budget into block and index caches;
  - creating the write-ahead log directory, which is fatal if it fails;
  - ZSTD compression;
  - the two Badger loading modes.

  `Startup` is a pure function to either the derived configuration or a fatal error. Its inputs are the flag values, the set of addresses that can be bound, and the set of directories `os.MkdirAll` can create. A fatal error also records the listeners already open when it struck. `Run` follows the source statement by statement. It overwrites the global `opts` record in place and sets the Badger options field by field. Its contract says it agrees with `Startup`.
- **Signal handling** (`signals.dfy`). The handler goroutine loops over the signal channel with a counter:
  - the first signal unsubscribes the channel and requests shutdown;
  - the third calls `os.Exit(1)`;
  - every other signal is logged and ignored.

  `HandleSignals` is that loop, proved against the specification function `HandlerActions`. A second model describes how signals reach the channel. The channel has one slot and `signal.Notify` never blocks, so a signal that finds the slot full is dropped. `signal.Stop` removes the only subscription for SIGINT and SIGTERM, so each signal goes back to how it was handled before `signal.Notify`. The next SIGTERM kills the process, whether or not the teardown has finished (`SignalAfterFirstBranchKills`, `SecondSignalKills`). So does the next SIGINT, unless the process was started with SIGINT ignored, as a shell does for a job started with `&`. In that case Go restores the ignore, and a later SIGINT is dropped (`IgnoredSigintAfterFirstBranchDropped`). A signal raised while still subscribed, after `close(sdCh)`, makes the runtime's send panic (`SignalAfterCloseWhileSubscribedPanics`). Under those rules, whatever the interleaving, the handler receives at most two signals (`ThirdSignalNeverReceived`). So the counter never reaches 3, and the `os.Exit(1)` branch cannot be taken. The signal that would have been the third ends the process by the default action instead, unless it is a SIGINT in a process started with SIGINT ignored; that one is dropped. `TwoSignalsCanBeReceived` shows that the bound of two is tight.
- **Shutdown** (`teardown.dfy`). The teardown goroutine and the end of `run` are modelled as a trace of events. The trace includes `run`'s deferred calls, which run last-in first-out. `SignalAndWait` and `Wait` each appear as a single "completed" event. The explicit `kv.Close()` at `dgraph/cmd/zero/run.go:412` runs before the deferred calls. So the store is first closed while the value-log GC goroutine started at line 337 is still running. The deferred `kv.Close()` then closes it a second time (`KvClosedBeforeGcStopped`).

The two Zero base ports, 5080 (gRPC) and 6080 (HTTP), are taken from the `port_offset` flag's help text (`dgraph/cmd/zero/run.go:94`). The `x` package that defines them is not part of this model.

## Model

| member | source | states |
|---|---|---|
| Decimal.FormatNat | dgraph/cmd/zero/run.go:141 | `%d` of a natural number is non-empty, all digits, and has no leading zero |
| Decimal.FormatNatValue | dgraph/cmd/zero/run.go:141 | the digits `%d` writes for a natural number have exactly that number as their value |
| Decimal.FormatInt | dgraph/cmd/zero/run.go:141 | `%d` of any int never contains a colon, so the colon `setupListener` inserts is the last one |
| Decimal.FormatIntRoundTrip | dgraph/cmd/zero/run.go:141 | reading back the `%d` rendering of any int, negative ones included, gives that int |
| Decimal.ListenAddr | dgraph/cmd/zero/run.go:140-143 | the listener address starts with the bind address followed by one colon |
| Decimal.ListenAddrRoundTrip | dgraph/cmd/zero/run.go:141 | splitting `addr:port` at its last colon recovers the address and the port, for any address |
| Decimal.ParseIntCanonical | dgraph/cmd/zero/run.go:141 | a string that reads as `n` is exactly the `%d` rendering of `n`: no leading zeros and no `-0` |
| Decimal.SplitListenAddrExact | dgraph/cmd/zero/run.go:141 | a string splits into `(addr, port)` exactly when it is the listener string `addr:port`, so an address stated through the split is fixed letter for letter |
| Startup.NodeId | dgraph/cmd/zero/run.go:228 | `uint64(idx)` lies below 2^64, and for an `idx` in the int64 range it is 0 exactly when `idx` is 0 |
| Startup.ReplicasAccepted | dgraph/cmd/zero/run.go:253-256 | the replica check, written with Go's truncating `%`, accepts a count exactly when it is positive and odd |
| Startup.CheckFlags | dgraph/cmd/zero/run.go:241-268 | no error is reported exactly when `idx` is not 0, no licence is given on an OSS build, the replica count is positive and odd, and the rebalance interval is positive |
| Startup.DefaultMyAddr | dgraph/cmd/zero/run.go:278-280 | a non-empty `my` is kept unchanged; an empty one becomes exactly `localhost:` followed by the `%d` of the gRPC port, because the split is exact; the result is never empty |
| Startup.DefaultMyAddrIdempotent | dgraph/cmd/zero/run.go:278-280 | applying the defaulting to an already defaulted address changes nothing |
| Startup.CacheShare | dgraph/cmd/zero/run.go:291-292 | for a non-negative percentage and budget, the share is the non-negative integer quotient of `percent * (totalCacheMb << 20)` by 100 |
| Startup.CacheSplitWithinBudget | dgraph/cmd/zero/run.go:289-292 | when the two percentages are non-negative and add up to 100, both cache sizes are non-negative and their sum is at most the budget in bytes |
| Startup.TablesMode | dgraph/cmd/zero/run.go:312-321 | `badger.tables` is accepted exactly for `mmap`, `ram` and `disk`, and maps each name to the mode of that name |
| Startup.VlogMode | dgraph/cmd/zero/run.go:322-329 | `badger.vlog` is accepted exactly for `mmap` and `disk`; the value log is never loaded to RAM |
| Startup.ModeNameRoundTrip | dgraph/cmd/zero/run.go:312-329 | each loading mode's name reads back as that mode for tables; for the value log it does so unless the mode is RAM |
| Startup.Configure | dgraph/cmd/zero/run.go:287-329 | after both listeners are open, a failure has both listeners open and is one of the cache, percentage, WAL directory, tables and vlog errors; a success keeps the options and both addresses |
| Startup.StartedIff | dgraph/cmd/zero/run.go:241-329 | startup succeeds exactly when every flag check passes, both addresses can be bound, the budget is non-negative, the percentages parse, the WAL directory can be created, and both modes are known |
| Startup.ConfigureStartedIff | dgraph/cmd/zero/run.go:287-329 | once both listeners are open, startup succeeds exactly when the cache budget is non-negative, the percentages parse, the WAL directory can be created, the tables mode is one of `mmap`, `ram` or `disk`, and the vlog mode is `mmap` or `disk` |
| Startup.IdxZeroFatal | dgraph/cmd/zero/run.go:241-243 | the outcome is the `idx` error with no listener open exactly when `idx` is 0 |
| Startup.ReplicasFatal | dgraph/cmd/zero/run.go:253-256 | once the earlier checks pass, the replica error is fatal, with no listener open, exactly for a count that is not positive or is even |
| Startup.RebalanceFatal | dgraph/cmd/zero/run.go:265-268 | once the earlier checks pass, the rebalance error is fatal, with no listener open, exactly for an interval that is not positive |
| Startup.NegativeCacheFatal | dgraph/cmd/zero/run.go:287 | once both listeners are up, a negative cache budget is fatal with both listeners open, and only a negative budget is |
| Startup.WalDirFatal | dgraph/cmd/zero/run.go:287-295 | once the cache checks pass, a WAL directory that cannot be created is fatal with both listeners open, whatever the compression and mode flags say; and only such a directory is |
| Startup.ListenersDistinct | dgraph/cmd/zero/run.go:282-285 | the gRPC and HTTP listener addresses always differ |
| Startup.FatalCases | dgraph/cmd/zero/run.go:241-329 | every fatal outcome is one of: a flag error with no listener open; a failed gRPC bind with none open; a failed HTTP bind with the gRPC listener open; a cache, percentage, WAL directory, tables or vlog error with both open |
| Startup.FatalListeners | dgraph/cmd/zero/run.go:282-285 | no listener is open exactly for the flag errors and the gRPC bind failure; only the gRPC listener is open exactly when the HTTP bind fails |
| Startup.StartedAddresses | dgraph/cmd/zero/run.go:274-285 | on success, the bind address is `0.0.0.0` exactly under `bindall`, otherwise `localhost`; the listeners are exactly `bind:%d` of the base ports plus the offset, because the split is exact; `my` is defaulted, to exactly `localhost:%d` of the gRPC port, only when empty; the other options are the flag values |
| Startup.StartedKvOptions | dgraph/cmd/zero/run.go:296-329 | on success, ZSTD is set at the given level exactly when the level is positive; the modes are the named ones; the caches are the two shares; the store's fixed settings are as written |
| Startup.Run | dgraph/cmd/zero/run.go:224-329 | the imperative startup returns exactly the outcome of `Startup`; it leaves the global options as assigned from the flags, with `my` defaulted once the flag checks pass |
| Signals.HandleSignals | dgraph/cmd/zero/run.go:369-382 | the handler loop's actions are those of `HandlerActions`, and its final counter is the number of signals received, capped at 3 |
| Signals.HandlerClosedForm | dgraph/cmd/zero/run.go:369-382 | over any channel output, the actions are fixed by the first three signals received: shutdown after the first, ignore after the second, abort after the third |
| Signals.ShutdownRequestedOnce | dgraph/cmd/zero/run.go:373-375 | unsubscribe and the shutdown request each happen exactly once if any signal arrives, right after the first is logged, and never otherwise |
| Signals.ExitOnThird | dgraph/cmd/zero/run.go:376-378 | `exit(1)` happens exactly once when a third signal is received, never otherwise, and it is the last action |
| Signals.SecondSignalIgnored | dgraph/cmd/zero/run.go:379-381 | the "ignoring" line is logged exactly once if at least two signals arrive, and never otherwise |
| Signals.IgnoreBranch | dgraph/cmd/zero/run.go:373-381 | every count other than 1 and 3, including 4 and later, takes the ignore branch alone |
| Signals.ThirdSignalNeverReceived | dgraph/cmd/zero/run.go:364-375 | under any interleaving of raised signals, receives, branches and the channel close, at most two signals are received and `exit(1)` never happens |
| Signals.DeliveredIsLeadingSignals | dgraph/cmd/zero/run.go:370 | the signals received are the channel's values, in order, up to the close that ends the `range` loop |
| Signals.SignalAfterFirstBranchKills | dgraph/cmd/zero/run.go:373-375 | once the first signal's branch has run `signal.Stop`, the next SIGTERM kills the process, and so does the next SIGINT unless SIGINT was ignored at start; and the handler receives nothing after it |
| Signals.SignalAfterCloseWhileSubscribedPanics | dgraph/cmd/zero/run.go:364-391 | a signal raised while still subscribed, after the channel is closed, makes the runtime panic, and the handler receives nothing after it |
| Signals.SignalWhileSubscribed | dgraph/cmd/zero/run.go:364-365 | while subscribed and open, a raised signal is never fatal: it fills the free slot, or it is dropped when the slot is full |
| Signals.IgnoredSigintAfterFirstBranchDropped | dgraph/cmd/zero/run.go:373-375 | for a process started with SIGINT ignored, a SIGINT after `signal.Stop` changes nothing and reaches nobody |
| Signals.SecondSignalKills | dgraph/cmd/zero/run.go:364-375 | a second signal raised after the first branch has run ends the process by the default action, not by `os.Exit(1)` |
| Signals.TwoSignalsCanBeReceived | dgraph/cmd/zero/run.go:364-375 | one schedule delivers two signals, so the handler logs the second one and ignores it |
| Teardown.TeardownStepsOnce | dgraph/cmd/zero/run.go:387-406 | the teardown has eight steps, all distinct, so each happens exactly once |
| Teardown.TeardownStrictlyOrdered | dgraph/cmd/zero/run.go:387-406 | each teardown step comes before every later step |
| Teardown.SnapshotOnce | dgraph/cmd/zero/run.go:399 | the shutdown trace holds exactly one snapshot attempt, the fourth event, with argument 0 |
| Teardown.SnapshotBetweenRaftAndStore | dgraph/cmd/zero/run.go:396-401 | the snapshot is attempted after Raft has stopped and before the Raft store stops |
| Teardown.KvClosedAfterWait | dgraph/cmd/zero/run.go:385-412 | the store is closed, and only after `Done`, after `Wait` has returned, and after the Raft store has stopped |
| Teardown.KvClosedBeforeGcStopped | dgraph/cmd/zero/run.go:334-412 | the explicit close comes before the deferred GC stop, and the deferred close closes the store again after it |
| Teardown.Process.Teardown | dgraph/cmd/zero/run.go:387-406 | the teardown goroutine appends its eight steps, in program order, to the trace |
| Teardown.Process.FinishRun | dgraph/cmd/zero/run.go:409-416 | after `Wait`: the explicit close, then the deferred calls last-in first-out (GC stop, close, Sentry flush when enabled) |
| Teardown.Process.Shutdown | dgraph/cmd/zero/run.go:385-416 | a graceful shutdown appends the whole shutdown trace |

## Left out

- Flag registration in `init` (`dgraph/cmd/zero/run.go:74-138`) is declarative. The flag values are inputs (`Startup.Flags`).
- `x.GetCachePercentages` is not part of this model. Its result is an input: two percentages, or `None` for its error.
- `net.Listen` is not part of this model. Whether an address can be bound is an input: the set of bindable addresses.
- The `x` package is not part of this model. The base ports come from the flag help text.
- Startup.CacheShare and Startup.Run use mathematical integers. Go's int64 overflow of `totalCache << 20` and of the percentage product is not modelled.
- Startup.NodeId covers the Go `int` to `uint64` conversion. `Zero.Conf.GetInt` is taken to return any integer.
- Loading the TLS client configuration (`dgraph/cmd/zero/run.go:222-223`) is not modelled. If it fails, `x.Check` ends the process before `opts` is assigned and before any modelled check, so that error takes precedence over every outcome `Startup` describes.
- The trace sampler, `expose_trace` and the `x.WorkerConfig` assignment are left out. They are foreign side effects or floating point, and none of them can fail.
- Signals.Next assumes no other part of the process subscribes to SIGINT or SIGTERM. Only then does `signal.Stop` return the signals to how they were handled at start. An ignore inherited for SIGTERM makes no difference, because Go's runtime installs its own SIGTERM handler regardless. So the model treats SIGTERM the same either way.
- The `peer`, ludicrous-mode and TLS fields of `opts` are left out. The modelled code does not use them.
- `os.MkdirAll` (`dgraph/cmd/zero/run.go:295`) is not part of this model. Whether it succeeds is an input: the set of directories it can create.
- `badger.OpenManaged` (`dgraph/cmd/zero/run.go:332`) and its error are left out. The model ends at the Badger options; it does not open the store.
- The gRPC server, the HTTP servers and handlers, zpages, `raftwal.Init`, `initAndStartNode`, telemetry and Sentry are left out. They are network and storage I/O behind libraries this model does not contain. Sentry's flush is a trace event only.
- The internals of `z.Closer` are left out. `Signal`, `Wait`, `Done` and `SignalAndWait` are trace events or actions, with no blocking modelled.
- The graceful-stop versus timeout race in `serveGRPC` is left out. It is concurrency and wall-clock timing.
- Logging in general is left out. Only the handler's log lines are actions; their exact text is not modelled.
- Teardown.Process.Teardown: the teardown is modelled as running to completion before `Wait` returns. Interleavings with other goroutines are not modelled.


=== FILE: decimal.dfy ===
/**
 * Decimal rendering of integers as Go's `fmt.Sprintf("%d", n)` writes them,
 * and the `addr:port` listener string built from it (dgraph/cmd/zero/run.go:141).
 * `ParseInt` and `SplitListenAddr` are the inverse reading used to state the
 * round trips; they model no code of the repository.
 */
module Decimal {
  import opened Wrappers

  predicate IsDigit(c: char) { '0' <= c <= '9' }

  function DigitChar(d: nat): (c: char)
    requires d < 10
    ensures IsDigit(c) && (c as int) - ('0' as int) == d
  {
    ('0' as int + d) as char
  }

  predicate AllDigits(s: string) { forall i :: 0 <= i < |s| ==> IsDigit(s[i]) }

  /** `%d` of a non-negative integer: no sign, no leading zeros. */
  function FormatNat(n: nat): (s: string)
    ensures |s| >= 1 && AllDigits(s)
    ensures |s| > 1 ==> s[0] != '0'
    ensures s[0] == '0' <==> n == 0
  {
    if n < 10 then [DigitChar(n)] else FormatNat(n / 10) + [DigitChar(n % 10)]
  }

  /** `%d` of any integer: a leading `-` for negative values. */
  function FormatInt(n: int): (s: string)
    ensures ':' !in s
  {
    if n < 0 then "-" + FormatNat(-n) else FormatNat(n)
  }

  /** The value of a string of decimal digits (most significant first). */
  function DigitsValue(s: string): (v: nat)
    requires AllDigits(s)
  {
    if s == [] then 0
    else DigitsValue(s[..|s| - 1]) * 10 + DigitValue(s[|s| - 1])
  }

  function DigitValue(c: char): (d: nat)
    requires IsDigit(c)
    ensures d < 10
  {
    (c as int) - ('0' as int)
  }

  /** A numeral as `%d` writes it: at least one digit, and no leading zero unless it is `0` itself. */
  predicate CanonicalDigits(s: string)
  {
    |s| >= 1 && AllDigits(s) && (|s| > 1 ==> s[0] != '0')
  }

  /**
   * Reads back what `FormatInt` writes, and nothing else: a canonical numeral,
   * or `-` followed by a canonical numeral other than `0`.
   */
  function ParseInt(s: string): (r: Option<int>)
    ensures r.Some? ==> |s| >= 1
  {
    if |s| >= 2 && s[0] == '-' && CanonicalDigits(s[1..]) && s[1] != '0' then Some(-(DigitsValue(s[1..]) as int))
    else if CanonicalDigits(s) then Some(DigitsValue(s))
    else None
  }

  lemma {:induction false} FormatNatValue(n: nat)
    ensures DigitsValue(FormatNat(n)) == n
  {
    var s := FormatNat(n);
    if n >= 10 {
      FormatNatValue(n / 10);
      assert s[..|s| - 1] == FormatNat(n / 10);
    }
  }

  /** Round trip: every integer is read back from its decimal rendering. */
  lemma {:induction false} FormatIntRoundTrip(n: int)
    ensures ParseInt(FormatInt(n)) == Some(n)
  {
    var s := FormatInt(n);
    if n < 0 {
      var digits := FormatNat(-n);
      FormatNatValue(-n);
      assert s[1..] == digits;
      assert |s| >= 2 && s[0] == '-' && CanonicalDigits(s[1..]) && s[1] != '0';
    } else {
      FormatNatValue(n);
      assert IsDigit(s[0]);
      assert CanonicalDigits(s);
    }
  }

  /** A canonical numeral is exactly the rendering of its value. */
  lemma {:induction false} FormatNatOfDigits(s: string)
    requires CanonicalDigits(s)
    ensures FormatNat(DigitsValue(s)) == s
    decreases |s|
  {
    var d := DigitValue(s[|s| - 1]);
    if |s| == 1 {
      assert DigitsValue(s) == d;
      assert DigitChar(d) == s[0];
    } else {
      var front := s[..|s| - 1];
      assert front[0] == s[0];
      FormatNatOfDigits(front);
      var v := DigitsValue(front);
      assert v != 0;   // the rendering of 0 starts with '0', and front does not
      assert DigitsValue(s) == v * 10 + d;
      assert (v * 10 + d) / 10 == v && (v * 10 + d) % 10 == d;
      assert DigitChar(d) == s[|s| - 1];
      assert s == front + [s[|s| - 1]];
    }
  }

  /** Reading is exact: a string that reads as `n` is the rendering of `n`, letter for letter. */
  lemma ParseIntCanonical(s: string, n: int)
    requires ParseInt(s) == Some(n)
    ensures s == FormatInt(n)
  {
    if |s| >= 2 && s[0] == '-' && CanonicalDigits(s[1..]) && s[1] != '0' {
      FormatNatOfDigits(s[1..]);
      assert s == "-" + s[1..];
    } else {
      FormatNatOfDigits(s);
    }
  }

  /** The listener address `addr:port` (dgraph/cmd/zero/run.go:141). */
  function ListenAddr(addr: string, port: int): (laddr: string)
    ensures |laddr| > |addr| && laddr[..|addr|] == addr && laddr[|addr|] == ':'
  {
    addr + ":" + FormatInt(port)
  }

  /** Index of the last `:` in `s`, if any. */
  function LastColon(s: string): (r: Option<nat>)
    ensures r.Some? ==> r.value < |s| && s[r.value] == ':' && ':' !in s[r.value + 1..]
    ensures r.None? ==> ':' !in s
  {
    if s == [] then None
    else if s[|s| - 1] == ':' then Some(|s| - 1)
    else
      var r := LastColon(s[..|s| - 1]);
      assert s == s[..|s| - 1] + [s[|s| - 1]];
      r
  }

  /** Splits `host:port` at the last colon and reads the port. */
  function SplitListenAddr(s: string): (r: Option<(string, int)>)
  {
    match LastColon(s)
    case None => None
    case Some(k) =>
      match ParseInt(s[k + 1..])
      case None => None
      case Some(p) => Some((s[..k], p))
  }

  lemma LastColonOfListenAddr(addr: string, port: int)
    ensures LastColon(ListenAddr(addr, port)) == Some(|addr|)
  {
    var s := ListenAddr(addr, port);
    var tail := FormatInt(port);
    assert s == (addr + ":") + tail;
    assert s[|addr|] == ':';
    assert ':' !in s[|addr| + 1..] by { assert s[|addr| + 1..] == tail; }
  }

  /** Round trip: the address and port are recovered from the listener string. */
  lemma ListenAddrRoundTrip(addr: string, port: int)
    ensures SplitListenAddr(ListenAddr(addr, port)) == Some((addr, port))
  {
    var s := ListenAddr(addr, port);
    LastColonOfListenAddr(addr, port);
    assert s[|addr| + 1..] == FormatInt(port);
    FormatIntRoundTrip(port);
  }

  /**
   * The split is exact: a string splits into `(addr, port)` exactly when it is
   * the listener string of `addr` and `port`, so stating an address through
   * `SplitListenAddr` fixes its spelling.
   */
  lemma SplitListenAddrExact(s: string, addr: string, port: int)
    ensures SplitListenAddr(s) == Some((addr, port)) <==> s == ListenAddr(addr, port)
  {
    ListenAddrRoundTrip(addr, port);
    if SplitListenAddr(s) == Some((addr, port)) {
      SplitListenAddrInjective(s, addr, port);
    }
  }

  lemma SplitListenAddrInjective(s: string, addr: string, port: int)
    requires SplitListenAddr(s) == Some((addr, port))
    ensures s == ListenAddr(addr, port)
  {
    var k := LastColon(s).value;
    var tail := s[k + 1..];
    assert ParseInt(tail) == Some(port) && s[..k] == addr;
    ParseIntCanonical(tail, port);
    assert s == s[..k] + [s[k]] + tail;
  }
}

=== FILE: signals.dfy ===
/**
 * The signal-handling goroutine of `run` (dgraph/cmd/zero/run.go:364-383).
 *
 * The handler ranges over the signal channel with one counter: the first
 * signal unsubscribes the channel and asks the top-level closer to stop, the
 * third aborts the process with status 1, every other one is logged and
 * ignored. `HandlerActions` is the specification over what the channel
 * yields; `HandleSignals` is the loop, proved against it.
 *
 * The second half models how signals reach that channel: `signal.Notify`
 * never blocks (a signal that finds the one-slot buffer full is dropped), and
 * after `signal.Stop` no signal is sent to the channel at all.
 */
module Signals {

  datatype Signal = SigInt | SigTerm

  /** What one receive from the channel yields: a signal, or the end after `close(sdCh)`. */
  datatype Received = Deliver(sig: Signal) | ChannelClosed

  /** The observable effects of the handler. */
  datatype Action =
    | LogReceived(sig: Signal)
    | Unsubscribe          // signal.Stop(sdCh)
    | RequestShutdown      // st.zero.closer.Signal()
    | LogAbort
    | Exit(status: int)    // os.Exit: the process ends here
    | LogIgnore

  /** The branch taken once the counter has been incremented to `cnt` (run.go:373-381). */
  function Respond(cnt: nat): seq<Action>
  {
    if cnt == 1 then [Unsubscribe, RequestShutdown]
    else if cnt == 3 then [LogAbort, Exit(1)]
    else [LogIgnore]
  }

  /**
   * The actions of the handler, having counted `cnt` signals already, on the
   * rest of the channel's output. The loop ends when the channel is closed or
   * when the process exits.
   */
  function HandlerActions(cnt: nat, events: seq<Received>): seq<Action>
    decreases |events|
  {
    if events == [] || events[0] == ChannelClosed then []
    else
      var acts := [LogReceived(events[0].sig)] + Respond(cnt + 1);
      if cnt + 1 == 3 then acts else acts + HandlerActions(cnt + 1, events[1..])
  }

  /** The signals the handler receives before the channel is closed. */
  function Delivered(events: seq<Received>): (ds: seq<Signal>)
    ensures |ds| <= |events|
  {
    if events == [] || events[0] == ChannelClosed then []
    else [events[0].sig] + Delivered(events[1..])
  }

  /**
   * `Delivered` is the run of signals the channel yields before its first
   * close (or its end): each is delivered in order, and what follows them,
   * if anything, is the close.
   */
  lemma {:induction false} DeliveredIsLeadingSignals(events: seq<Received>)
    ensures var ds := Delivered(events);
      (forall k :: 0 <= k < |ds| ==> events[k] == Deliver(ds[k])) &&
      (|ds| < |events| ==> events[|ds|] == ChannelClosed)
    decreases |events|
  {
    if events != [] && events[0] != ChannelClosed {
      DeliveredIsLeadingSignals(events[1..]);
      var ds := Delivered(events);
      assert ds == [events[0].sig] + Delivered(events[1..]);
      forall k | 0 <= k < |ds|
        ensures events[k] == Deliver(ds[k])
      {
        if k > 0 {
          assert events[k] == events[1..][k - 1];
        }
      }
    }
  }

  /**
   * The handler's actions as a closed form of the signals it receives:
   * nothing, then shutdown at the first, an ignore at the second and the
   * abort at the third.
   */
  function ExpectedActions(ds: seq<Signal>): (acts: seq<Action>)
  {
    FirstSegment(ds) + SecondSegment(ds) + ThirdSegment(ds)
  }

  /** What the first signal produces: its log line, then unsubscribe and shutdown. */
  function FirstSegment(ds: seq<Signal>): seq<Action>
  {
    if |ds| >= 1 then [LogReceived(ds[0]), Unsubscribe, RequestShutdown] else []
  }

  /** What the second signal produces: its log line and the "ignoring" line. */
  function SecondSegment(ds: seq<Signal>): seq<Action>
  {
    if |ds| >= 2 then [LogReceived(ds[1]), LogIgnore] else []
  }

  /** What the third signal produces: its log line, the abort line and exit(1). */
  function ThirdSegment(ds: seq<Signal>): seq<Action>
  {
    if |ds| >= 3 then [LogReceived(ds[2]), LogAbort, Exit(1)] else []
  }

  /** One more signal below the abort threshold adds its log line and its branch. */
  lemma ExpectedActionsStep(ds: seq<Signal>, sig: Signal)
    requires |ds| < 3
    ensures ExpectedActions(ds + [sig]) == ExpectedActions(ds) + [LogReceived(sig)] + Respond(|ds| + 1)
  {
    var ds' := ds + [sig];
    assert ds'[|ds|] == sig;
    if |ds| >= 1 { assert ds'[0] == ds[0]; }
    if |ds| >= 2 { assert ds'[1] == ds[1]; }
  }

  /** Signals after the third one leave the closed form unchanged. */
  lemma ExpectedActionsIgnoresLater(ds: seq<Signal>, later: seq<Signal>)
    requires |ds| >= 3
    ensures ExpectedActions(ds + later) == ExpectedActions(ds)
  {
    var all := ds + later;
    assert all[0] == ds[0] && all[1] == ds[1] && all[2] == ds[2];
  }

  lemma HandlerClosedForm(events: seq<Received>)
    ensures HandlerActions(0, events) == ExpectedActions(Delivered(events))
  {
    var ds := Delivered(events);
    if |ds| >= 1 {
      var e1 := events[1..];
      var a0 := [LogReceived(ds[0]), Unsubscribe, RequestShutdown];
      assert HandlerActions(0, events) == a0 + HandlerActions(1, e1);
      if |ds| >= 2 {
        var e2 := e1[1..];
        var a1 := [LogReceived(ds[1]), LogIgnore];
        assert Delivered(e1)[0] == ds[1];
        assert HandlerActions(1, e1) == a1 + HandlerActions(2, e2);
        if |ds| >= 3 {
          assert Delivered(e2)[0] == ds[2];
          assert HandlerActions(2, e2) == [LogReceived(ds[2]), LogAbort, Exit(1)];
        }
      }
    }
  }

  /** The handler's loop (run.go:369-382), with the counter as its state. */
  method HandleSignals(events: seq<Received>) returns (actions: seq<Action>, sigCnt: nat)
    ensures actions == HandlerActions(0, events)
    ensures sigCnt == if |Delivered(events)| < 3 then |Delivered(events)| else 3
  {
    actions, sigCnt := [], 0;
    ghost var received: seq<Signal> := [];
    var i := 0;
    while i < |events| && events[i] != ChannelClosed
      invariant 0 <= i <= |events| && sigCnt == i == |received| && sigCnt < 3
      invariant actions == ExpectedActions(received)
      invariant Delivered(events) == received + Delivered(events[i..])
    {
      var sig := events[i].sig;
      ReceiveStep(events, i, received);
      ExpectedActionsStep(received, sig);
      received := received + [sig];
      actions := actions + [LogReceived(sig)];
      sigCnt := sigCnt + 1;
      if sigCnt == 1 {
        actions := actions + [Unsubscribe, RequestShutdown];
      } else if sigCnt == 3 {
        actions := actions + [LogAbort, Exit(1)];
        ExpectedActionsIgnoresLater(received, Delivered(events[i + 1..]));
        HandlerClosedForm(events);
        return;
      } else {
        actions := actions + [LogIgnore];
      }
      i := i + 1;
    }
    assert Delivered(events[i..]) == [];
    HandlerClosedForm(events);
  }

  /** Receiving events[i] moves its signal from the rest to what was received. */
  lemma ReceiveStep(events: seq<Received>, i: nat, received: seq<Signal>)
    requires i < |events| && events[i] != ChannelClosed
    requires Delivered(events) == received + Delivered(events[i..])
    ensures Delivered(events) == (received + [events[i].sig]) + Delivered(events[i + 1..])
  {
    assert events[i..][1..] == events[i + 1..];
    assert Delivered(events[i..]) == [events[i].sig] + Delivered(events[i + 1..]);
  }


  /** The closed form, case by case on the number of signals received. */
  lemma ExpectedActionsCases(ds: seq<Signal>)
    ensures |ds| == 0 ==> ExpectedActions(ds) == []
    ensures |ds| == 1 ==> ExpectedActions(ds) == [LogReceived(ds[0]), Unsubscribe, RequestShutdown]
    ensures |ds| == 2 ==>
      ExpectedActions(ds) == [LogReceived(ds[0]), Unsubscribe, RequestShutdown, LogReceived(ds[1]), LogIgnore]
    ensures |ds| >= 3 ==>
      ExpectedActions(ds) == [LogReceived(ds[0]), Unsubscribe, RequestShutdown, LogReceived(ds[1]), LogIgnore,
                              LogReceived(ds[2]), LogAbort, Exit(1)]
  {
  }

  /** How often each effect occurs in the closed form. */
  lemma ExpectedCounts(ds: seq<Signal>)
    ensures multiset(ExpectedActions(ds))[RequestShutdown] == if |ds| >= 1 then 1 else 0
    ensures multiset(ExpectedActions(ds))[Unsubscribe] == if |ds| >= 1 then 1 else 0
    ensures multiset(ExpectedActions(ds))[LogIgnore] == if |ds| >= 2 then 1 else 0
    ensures multiset(ExpectedActions(ds))[Exit(1)] == if |ds| >= 3 then 1 else 0
  {
    FirstSegmentCounts(ds);
    SecondSegmentCounts(ds);
    ThirdSegmentCounts(ds);
    assert multiset(ExpectedActions(ds)) ==
      multiset(FirstSegment(ds)) + multiset(SecondSegment(ds)) + multiset(ThirdSegment(ds));
  }

  lemma FirstSegmentCounts(ds: seq<Signal>)
    ensures multiset(FirstSegment(ds))[RequestShutdown] == multiset(FirstSegment(ds))[Unsubscribe] ==
      if |ds| >= 1 then 1 else 0
    ensures multiset(FirstSegment(ds))[LogIgnore] == multiset(FirstSegment(ds))[Exit(1)] == 0
  {
  }

  lemma SecondSegmentCounts(ds: seq<Signal>)
    ensures multiset(SecondSegment(ds))[LogIgnore] == if |ds| >= 2 then 1 else 0
    ensures multiset(SecondSegment(ds))[RequestShutdown] == multiset(SecondSegment(ds))[Unsubscribe] ==
      multiset(SecondSegment(ds))[Exit(1)] == 0
  {
  }

  lemma ThirdSegmentCounts(ds: seq<Signal>)
    ensures multiset(ThirdSegment(ds))[Exit(1)] == if |ds| >= 3 then 1 else 0
    ensures multiset(ThirdSegment(ds))[RequestShutdown] == multiset(ThirdSegment(ds))[Unsubscribe] ==
      multiset(ThirdSegment(ds))[LogIgnore] == 0
  {
  }

  /** Where shutdown and exit stand in the closed form. */
  lemma ExpectedOrder(ds: seq<Signal>)
    ensures |ds| >= 1 ==> ExpectedActions(ds)[1] == Unsubscribe && ExpectedActions(ds)[2] == RequestShutdown
    ensures |ds| >= 3 ==> ExpectedActions(ds)[|ExpectedActions(ds)| - 1] == Exit(1)
  {
    ExpectedActionsCases(ds);
  }

  /**
   * Shutdown is requested, and the channel unsubscribed, exactly once if any
   * signal arrives, right after the first one is logged; never otherwise.
   */
  lemma ShutdownRequestedOnce(events: seq<Received>)
    ensures multiset(HandlerActions(0, events))[RequestShutdown] == if |Delivered(events)| >= 1 then 1 else 0
    ensures multiset(HandlerActions(0, events))[Unsubscribe] == if |Delivered(events)| >= 1 then 1 else 0
    ensures |Delivered(events)| >= 1 ==>
      HandlerActions(0, events)[1] == Unsubscribe && HandlerActions(0, events)[2] == RequestShutdown
  {
    HandlerClosedForm(events);
    ExpectedCounts(Delivered(events));
    ExpectedOrder(Delivered(events));
  }

  /** The process exits, with status 1, exactly when a third signal is received, and that is the last action. */
  lemma ExitOnThird(events: seq<Received>)
    ensures multiset(HandlerActions(0, events))[Exit(1)] == if |Delivered(events)| >= 3 then 1 else 0
    ensures |Delivered(events)| >= 3 ==>
      var acts := HandlerActions(0, events);
      acts[|acts| - 1] == Exit(1)
  {
    HandlerClosedForm(events);
    ExpectedCounts(Delivered(events));
    ExpectedOrder(Delivered(events));
  }

  /** The "ignoring" line is logged once exactly when a second signal arrives (`ExpectedActionsCases` gives the whole action list). */
  lemma SecondSignalIgnored(events: seq<Received>)
    ensures multiset(HandlerActions(0, events))[LogIgnore] == if |Delivered(events)| >= 2 then 1 else 0
  {
    HandlerClosedForm(events);
    ExpectedCounts(Delivered(events));
    ExpectedOrder(Delivered(events));
  }

  /** Every count other than 1 and 3 takes the "ignore" branch. */
  lemma IgnoreBranch(cnt: nat)
    ensures Respond(cnt) == [LogIgnore] <==> cnt != 1 && cnt != 3
  {
  }

  // ---------------------------------------------------------------------
  // Delivery into the channel

  /** Steps of the runtime and of the handler goroutine, in any interleaving. */
  datatype Step =
    | Raise(sig: Signal)   // the OS raises a signal
    | Receive              // the handler takes the next value from the channel
    | RunBranch            // the handler runs the branch for the value it took
    | Close                // the teardown closes the channel

  /**
   * Whether the process is still running. `signal.Stop` (run.go:374) drops the
   * only subscription for SIGINT and SIGTERM, so the signals are handled as
   * before `signal.Notify`: SIGTERM, and SIGINT unless the process inherited
   * it ignored, kill the process; an inherited-ignored SIGINT is ignored
   * again. While still subscribed, the runtime's send to a channel that
   * `close(sdCh)` (run.go:391) has closed panics.
   */
  datatype Fate = Running | KilledBySignal | SendOnClosedPanic

  /**
   * The channel (`make(chan os.Signal, 1)`, run.go:364), the subscription of
   * `signal.Notify` (run.go:365), the handler's counter and the process's
   * fate. `busy` is set between taking a value and finishing its branch;
   * `finished` once the handler has seen the channel closed.
   * `sigintIgnored` records that the process was started with SIGINT ignored
   * (as a shell does for a job started with `&`); Go keeps such an inherited
   * ignore for SIGINT (and SIGHUP), not for SIGTERM.
   */
  datatype ChannelState = ChannelState(
    subscribed: bool, buffer: seq<Signal>, closed: bool, cnt: nat, busy: bool, finished: bool, fate: Fate,
    sigintIgnored: bool)

  /** The state right after `signal.Notify`, for a process started with or without SIGINT ignored. */
  function InitialChannel(sigintIgnored: bool): ChannelState
  {
    ChannelState(true, [], false, 0, false, false, Running, sigintIgnored)
  }

  /** The new state after one step, and what the handler receives in it. Nothing happens once the process has ended. */
  function Next(s: ChannelState, step: Step): (ChannelState, seq<Received>)
  {
    if s.fate != Running then (s, [])
    else
    match step
    case Raise(sig) =>
      if !s.subscribed then
        if sig == SigInt && s.sigintIgnored then (s, []) else (s.(fate := KilledBySignal), [])
      else if s.closed then (s.(fate := SendOnClosedPanic), [])
      // non-blocking send: into a free slot, else the signal is dropped
      else if |s.buffer| < 1 then (s.(buffer := s.buffer + [sig]), [])
      else (s, [])
    case Receive =>
      if s.finished || s.busy then (s, [])
      else if |s.buffer| > 0 then (s.(buffer := s.buffer[1..], cnt := s.cnt + 1, busy := true), [Deliver(s.buffer[0])])
      else if s.closed then (s.(finished := true), [ChannelClosed])
      else (s, [])   // blocked on an empty, open channel
    case RunBranch =>
      if !s.busy then (s, [])
      else if s.cnt == 1 then (s.(subscribed := false, busy := false), [])
      else (s.(busy := false), [])
    case Close => (s.(closed := true), [])
  }

  /** What the handler receives over a whole schedule. */
  function Feed(s: ChannelState, schedule: seq<Step>): seq<Received>
    decreases |schedule|
  {
    if schedule == [] then []
    else
      var (s', out) := Next(s, schedule[0]);
      out + Feed(s', schedule[1..])
  }

  /** The state after a whole schedule. */
  function After(s: ChannelState, schedule: seq<Step>): ChannelState
    decreases |schedule|
  {
    if schedule == [] then s else After(Next(s, schedule[0]).0, schedule[1..])
  }

  /** Once the process has ended, no later step changes anything and the handler receives nothing. */
  lemma {:induction false} EndIsFinal(s: ChannelState, schedule: seq<Step>)
    requires s.fate != Running
    ensures After(s, schedule) == s && Feed(s, schedule) == []
    decreases |schedule|
  {
    if schedule != [] {
      assert Next(s, schedule[0]) == (s, []);
      EndIsFinal(s, schedule[1..]);
    }
  }

  function Deliveries(events: seq<Received>): nat
  {
    if events == [] then 0 else (if events[0].Deliver? then 1 else 0) + Deliveries(events[1..])
  }

  lemma {:induction false} DeliveriesAppend(a: seq<Received>, b: seq<Received>)
    ensures Deliveries(a + b) == Deliveries(a) + Deliveries(b)
  {
    if a != [] {
      assert (a + b)[0] == a[0] && (a + b)[1..] == a[1..] + b;
      DeliveriesAppend(a[1..], b);
    } else {
      assert a + b == b;
    }
  }

  lemma {:induction false} DeliveredAtMostDeliveries(events: seq<Received>)
    ensures |Delivered(events)| <= Deliveries(events)
  {
    if events != [] && events[0] != ChannelClosed {
      DeliveredAtMostDeliveries(events[1..]);
    }
  }

  /**
   * The channel holds at most one signal; while the channel is subscribed the
   * handler has taken at most the first signal and not yet finished its
   * branch; and what the handler has counted plus what is buffered is at most two.
   */
  ghost predicate ChannelInv(s: ChannelState)
  {
    |s.buffer| <= 1 && s.cnt + |s.buffer| <= 2 &&
    (s.subscribed ==> s.cnt == 0 || (s.cnt == 1 && s.busy)) &&
    (!s.subscribed ==> s.cnt >= 1)
  }

  lemma NextKeepsInv(s: ChannelState, step: Step)
    requires ChannelInv(s)
    ensures ChannelInv(Next(s, step).0)
    ensures Next(s, step).0.cnt == s.cnt + Deliveries(Next(s, step).1)
  {
  }

  lemma {:induction false} FeedBound(s: ChannelState, schedule: seq<Step>)
    requires ChannelInv(s)
    ensures s.cnt + Deliveries(Feed(s, schedule)) <= 2
    decreases |schedule|
  {
    if schedule != [] {
      var (s', out) := Next(s, schedule[0]);
      NextKeepsInv(s, schedule[0]);
      FeedBound(s', schedule[1..]);
      DeliveriesAppend(out, Feed(s', schedule[1..]));
    }
  }

  /**
   * Whatever the order of signals, receives and the close, the handler
   * receives at most two signals: one can wait in the buffer while the first
   * is handled, and `signal.Stop` cuts off the rest. So the count never
   * reaches 3 and the `os.Exit(1)` branch is never taken.
   */
  lemma ThirdSignalNeverReceived(sigintIgnored: bool, schedule: seq<Step>)
    ensures |Delivered(Feed(InitialChannel(sigintIgnored), schedule))| <= 2
    ensures multiset(HandlerActions(0, Feed(InitialChannel(sigintIgnored), schedule)))[Exit(1)] == 0
  {
    var events := Feed(InitialChannel(sigintIgnored), schedule);
    FeedBound(InitialChannel(sigintIgnored), schedule);
    DeliveredAtMostDeliveries(events);
    ExitOnThird(events);
  }

  /**
   * Once the first signal's branch has run, the subscription is gone: the
   * next SIGTERM, or SIGINT unless it was ignored at start, kills the process,
   * and the handler receives nothing more, whatever else the schedule holds.
   */
  lemma SignalAfterFirstBranchKills(s: ChannelState, sig: Signal, rest: seq<Step>)
    requires ChannelInv(s) && s.fate == Running && s.cnt >= 1 && !s.busy
    requires sig == SigTerm || !s.sigintIgnored
    ensures After(s, [Raise(sig)] + rest).fate == KilledBySignal
    ensures Feed(s, [Raise(sig)] + rest) == []
  {
    var s' := Next(s, Raise(sig)).0;
    assert s' == s.(fate := KilledBySignal);
    assert ([Raise(sig)] + rest)[1..] == rest;
    EndIsFinal(s', rest);
  }

  /**
   * For a process started with SIGINT ignored, `signal.Stop` restores the
   * ignore: once the first signal's branch has run, a SIGINT changes nothing
   * and reaches nobody.
   */
  lemma IgnoredSigintAfterFirstBranchDropped(s: ChannelState, rest: seq<Step>)
    requires ChannelInv(s) && s.fate == Running && s.cnt >= 1 && !s.busy && s.sigintIgnored
    ensures Next(s, Raise(SigInt)) == (s, [])
    ensures After(s, [Raise(SigInt)] + rest) == After(s, rest)
    ensures Feed(s, [Raise(SigInt)] + rest) == Feed(s, rest)
  {
    assert !s.subscribed;
    assert ([Raise(SigInt)] + rest)[1..] == rest;
  }

  /** While still subscribed, a signal raised after the channel is closed makes the runtime panic. */
  lemma SignalAfterCloseWhileSubscribedPanics(s: ChannelState, sig: Signal, rest: seq<Step>)
    requires s.fate == Running && s.subscribed && s.closed
    ensures After(s, [Raise(sig)] + rest).fate == SendOnClosedPanic
    ensures Feed(s, [Raise(sig)] + rest) == []
  {
    var s' := Next(s, Raise(sig)).0;
    assert s' == s.(fate := SendOnClosedPanic);
    assert ([Raise(sig)] + rest)[1..] == rest;
    EndIsFinal(s', rest);
  }

  /** A signal raised while the process runs and the channel is open and subscribed is buffered or dropped, never fatal. */
  lemma SignalWhileSubscribed(s: ChannelState, sig: Signal)
    requires s.fate == Running && s.subscribed && !s.closed
    ensures Next(s, Raise(sig)).0.fate == Running
    ensures |s.buffer| < 1 ==> Next(s, Raise(sig)).0.buffer == s.buffer + [sig]
    ensures |s.buffer| >= 1 ==> Next(s, Raise(sig)).0 == s
  {
  }

  /** A second signal after the first branch has run ends the process by the default action, not by `os.Exit(1)`. */
  lemma SecondSignalKills(sigintIgnored: bool)
    ensures After(InitialChannel(sigintIgnored), [Raise(SigInt), Receive, RunBranch, Raise(SigTerm)]).fate == KilledBySignal
  {
    var s0 := InitialChannel(sigintIgnored);
    var s1 := s0.(buffer := [SigInt]);
    var s2 := s1.(buffer := [], cnt := 1, busy := true);
    var s3 := s2.(subscribed := false, busy := false);
    assert Next(s0, Raise(SigInt)).0 == s1 by { assert s0.buffer + [SigInt] == [SigInt]; }
    assert Next(s1, Receive).0 == s2 by { assert s1.buffer[1..] == []; }
    assert Next(s2, RunBranch).0 == s3;
    assert After(s3, [Raise(SigTerm)]) == s3.(fate := KilledBySignal);
    assert After(s2, [RunBranch, Raise(SigTerm)]) == s3.(fate := KilledBySignal) by {
      assert [RunBranch, Raise(SigTerm)][1..] == [Raise(SigTerm)];
    }
    assert After(s1, [Receive, RunBranch, Raise(SigTerm)]) == s3.(fate := KilledBySignal) by {
      assert [Receive, RunBranch, Raise(SigTerm)][1..] == [RunBranch, Raise(SigTerm)];
    }
    assert [Raise(SigInt), Receive, RunBranch, Raise(SigTerm)][1..] == [Receive, RunBranch, Raise(SigTerm)];
  }

  /** Two signals can reach the handler: the bound above is tight. */
  lemma TwoSignalsCanBeReceived(sigintIgnored: bool)
    ensures var events := Feed(InitialChannel(sigintIgnored), [Raise(SigInt), Receive, Raise(SigTerm), RunBranch, Receive]);
      Delivered(events) == [SigInt, SigTerm] &&
      HandlerActions(0, events) ==
        [LogReceived(SigInt), Unsubscribe, RequestShutdown, LogReceived(SigTerm), LogIgnore]
  {
    var s0 := InitialChannel(sigintIgnored);
    var s1 := s0.(buffer := [SigInt]);
    var s2 := s1.(buffer := [], cnt := 1, busy := true);
    var s3 := s2.(buffer := [SigTerm]);
    var s4 := s3.(subscribed := false, busy := false);
    var s5 := s4.(buffer := [], cnt := 2, busy := true);
    assert Next(s0, Raise(SigInt)) == (s1, []) by { assert s0.buffer + [SigInt] == [SigInt]; }
    assert Next(s1, Receive) == (s2, [Deliver(SigInt)]) by { assert s1.buffer[1..] == []; }
    assert Next(s2, Raise(SigTerm)) == (s3, []) by { assert s2.buffer + [SigTerm] == [SigTerm]; }
    assert Next(s3, RunBranch) == (s4, []);
    assert Next(s4, Receive) == (s5, [Deliver(SigTerm)]) by { assert s4.buffer[1..] == []; }
    assert Feed(s5, []) == [];
    assert Feed(s4, [Receive]) == [Deliver(SigTerm)];
    assert Feed(s3, [RunBranch, Receive]) == [Deliver(SigTerm)] by {
      assert [RunBranch, Receive][1..] == [Receive];
    }
    assert Feed(s2, [Raise(SigTerm), RunBranch, Receive]) == [Deliver(SigTerm)] by {
      assert [Raise(SigTerm), RunBranch, Receive][1..] == [RunBranch, Receive];
    }
    assert Feed(s1, [Receive, Raise(SigTerm), RunBranch, Receive]) == [Deliver(SigInt), Deliver(SigTerm)] by {
      assert [Receive, Raise(SigTerm), RunBranch, Receive][1..] == [Raise(SigTerm), RunBranch, Receive];
    }
    var events := [Deliver(SigInt), Deliver(SigTerm)];
    assert Feed(s0, [Raise(SigInt), Receive, Raise(SigTerm), RunBranch, Receive]) == events by {
      assert [Raise(SigInt), Receive, Raise(SigTerm), RunBranch, Receive][1..] ==
        [Receive, Raise(SigTerm), RunBranch, Receive];
    }
    assert events[1..][1..] == [];
    assert Delivered(events) == [SigInt, SigTerm];
    HandlerClosedForm(events);
  }
}

=== FILE: startup.dfy ===
/**
 * Startup option validation and derivation of the Zero coordinator
 * (`run` in dgraph/cmd/zero/run.go:224-329): the fatal configuration checks in
 * the order the source makes them, the bind and advertised addresses, the two
 * listener addresses, the cache split and the Badger options.
 *
 * `Startup` is the specification as a pure function of the flag values, of
 * the set of addresses the operating system lets the process bind and of the
 * set of directories `os.MkdirAll` can create (or finds in place); `Run`
 * follows the source statement by statement, overwriting the global options
 * record in place and setting the Badger options struct field by field, and is
 * proved to agree with `Startup`.
 */
module Startup {
  import opened Wrappers
  import opened Decimal

  /** Base ports of Zero; every listening port is shifted by `port_offset`. */
  const PortZeroGrpc: int := 5080
  const PortZeroHTTP: int := 6080
  /** `n << 20`: a MiB count to bytes. */
  const MiB: int := 0x10_0000
  const TwoTo64: int := 0x1_0000_0000_0000_0000
  const TwoTo63: int := 0x8000_0000_0000_0000

  /** The flag values `run` reads, as the configuration layer hands them over. */
  datatype Flags = Flags(
    bindall: bool,
    my: string,
    portOffset: int,
    idx: int,
    replicas: int,
    wal: string,
    rebalanceInterval: int,     // a duration in nanoseconds
    cacheMb: int,
    // what x.GetCachePercentages(cache_percentage, 2) returns: None is its error
    cachePercentages: Option<(int, int)>,
    eeBuild: bool,
    enterpriseLicense: string,
    compressionLevel: int,
    tables: string,
    vlog: string)

  /** The process-wide `opts` record (the fields the modelled code uses). */
  datatype Options = Options(
    bindall: bool,
    myAddr: string,
    portOffset: int,
    nodeId: nat,
    numReplicas: int,
    w: string,
    rebalanceInterval: int,
    totalCache: int)

  /** The zero value Go gives the global before `run` assigns it. */
  const EmptyOptions := Options(false, "", 0, 0, 0, "", 0, 0)

  datatype StartupError =
    | IdxZero
    | LicenseOnOssBuild
    | ReplicasNotOdd(found: int)
    | RebalanceNotPositive(found: int)
    | ListenFailed(laddr: string)
    | NegativeCache
    | BadCachePercentages
    | WalDirFailed(wal: string)
    | BadTablesMode(tables: string)
    | BadVlogMode(vlog: string)

  datatype LoadingMode = MemoryMap | LoadToRAM | FileIO

  /**
   * The Badger options `run` sets. `None` in an optional field means the
   * field is left at Badger's own default.
   */
  datatype KvOptions = KvOptions(
    dir: string,
    syncWrites: bool,
    truncate: bool,
    valueLogFileSize: int,
    blockCacheSize: int,
    indexCacheSize: int,
    loadBloomsOnOpen: bool,
    zstdLevel: Option<int>,
    tableLoadingMode: Option<LoadingMode>,
    valueLogLoadingMode: Option<LoadingMode>)

  datatype Config = Config(opts: Options, grpcAddr: string, httpAddr: string, kv: KvOptions)

  /**
   * Either the derived configuration, or the fatal error that ends the process
   * together with the listener addresses already opened when it struck.
   */
  datatype Outcome = Started(config: Config) | Fatal(error: StartupError, listeners: seq<string>)

  /** `uint64(n)` for a Go `int`: two's-complement reinterpretation. */
  function NodeId(idx: int): (id: nat)
    ensures id < TwoTo64
    ensures -TwoTo63 <= idx < TwoTo63 ==> (id == 0 <==> idx == 0)
  {
    idx % TwoTo64
  }

  function Abs(n: int): nat { if n < 0 then -n else n }

  /** Go's `/`: truncated division, rounding toward zero. */
  function GoQuot(a: int, b: int): (q: int)
    requires b > 0
    ensures a >= 0 ==> 0 <= q && q * b <= a < q * b + b
    ensures a < 0 ==> q <= 0 && a <= q * b < a + b
  {
    if a >= 0 then a / b else -((-a) / b)
  }

  /** Go's `%`: the remainder of `GoQuot`, with the sign of `a`. */
  function GoRem(a: int, b: int): (r: int)
    requires b > 0
    ensures a == GoQuot(a, b) * b + r
    ensures Abs(r) < b
    ensures r != 0 ==> (r < 0 <==> a < 0)
  {
    if a >= 0 then a % b else -((-a) % b)
  }

  /** The replicas check (run.go:253): accepted exactly for positive odd counts. */
  function ReplicasAccepted(n: int): (ok: bool)
    ensures ok <==> n > 0 && n % 2 == 1
  {
    !(n < 0 || GoRem(n, 2) == 0)
  }

  /** The checks made before any listener is opened, first failure wins. */
  function CheckFlags(f: Flags): (e: Option<StartupError>)
    ensures e == None <==>
      NodeId(f.idx) != 0 && (f.eeBuild || f.enterpriseLicense == "") &&
      f.replicas > 0 && f.replicas % 2 == 1 && f.rebalanceInterval > 0
  {
    if NodeId(f.idx) == 0 then Some(IdxZero)
    else if !f.eeBuild && f.enterpriseLicense != "" then Some(LicenseOnOssBuild)
    else if !ReplicasAccepted(f.replicas) then Some(ReplicasNotOdd(f.replicas))
    else if f.rebalanceInterval <= 0 then Some(RebalanceNotPositive(f.rebalanceInterval))
    else None
  }

  /** The global `opts` as assigned from the flags (run.go:224-239). */
  function ReadOptions(f: Flags): Options
  {
    Options(f.bindall, f.my, f.portOffset, NodeId(f.idx), f.replicas, f.wal,
            f.rebalanceInterval, f.cacheMb)
  }

  function BindAddr(bindall: bool): string
  {
    if bindall then "0.0.0.0" else "localhost"
  }

  /** The advertised address: `my` if given, else the local gRPC address. */
  function DefaultMyAddr(my: string, portOffset: int): (a: string)
    ensures a != ""
    ensures my != "" ==> a == my
    ensures my == "" ==> SplitListenAddr(a) == Some(("localhost", PortZeroGrpc + portOffset))
  {
    if my == "" then
      ListenAddrRoundTrip("localhost", PortZeroGrpc + portOffset);
      ListenAddr("localhost", PortZeroGrpc + portOffset)
    else my
  }

  /** Bytes of a cache that gets `percent` percent of `totalCacheMb` MiB (run.go:291-292). */
  function CacheShare(percent: int, totalCacheMb: int): (bytes: int)
    ensures percent >= 0 && totalCacheMb >= 0 ==>
      0 <= bytes && bytes * 100 <= percent * (totalCacheMb * MiB) < bytes * 100 + 100
  {
    GoQuot(percent * (totalCacheMb * MiB), 100)
  }

  /** The flag spelling of each loading mode (run.go:129-135). */
  function ModeName(m: LoadingMode): string
  {
    match m
    case MemoryMap => "mmap"
    case LoadToRAM => "ram"
    case FileIO => "disk"
  }

  /** `badger.tables` (run.go:312-321): any of the three modes. */
  function TablesMode(s: string): (m: Option<LoadingMode>)
    ensures m.Some? ==> ModeName(m.value) == s
    ensures m.None? <==> s != "mmap" && s != "ram" && s != "disk"
  {
    if s == "mmap" then Some(MemoryMap)
    else if s == "ram" then Some(LoadToRAM)
    else if s == "disk" then Some(FileIO)
    else None
  }

  /** `badger.vlog` (run.go:322-329): memory-mapped or file I/O, never RAM. */
  function VlogMode(s: string): (m: Option<LoadingMode>)
    ensures m.Some? ==> ModeName(m.value) == s && m.value != LoadToRAM
    ensures m.None? <==> s != "mmap" && s != "disk"
  {
    if s == "mmap" then Some(MemoryMap)
    else if s == "disk" then Some(FileIO)
    else None
  }

  /** `badger.LSMOnlyOptions(w)` with the chained settings of run.go:296-302. */
  function BaseKvOptions(w: string, blockCacheSize: int, indexCacheSize: int): KvOptions
  {
    KvOptions(w, false, true, 64 * MiB, blockCacheSize, indexCacheSize, false, None, None, None)
  }

  /**
   * The part of `run` after both listeners are open (run.go:287-329): the
   * cache budget and percentages, compression and the two loading modes.
   */
  function Configure(f: Flags, o: Options, creatable: set<string>, grpcAddr: string, httpAddr: string): (r: Outcome)
    ensures r.Fatal? ==> r.listeners == [grpcAddr, httpAddr]
    ensures r.Fatal? ==> r.error in {NegativeCache, BadCachePercentages, WalDirFailed(o.w), BadTablesMode(f.tables), BadVlogMode(f.vlog)}
    ensures r.Started? ==> r.config.opts == o && r.config.grpcAddr == grpcAddr && r.config.httpAddr == httpAddr
  {
    if o.totalCache < 0 then Fatal(NegativeCache, [grpcAddr, httpAddr])
    else if f.cachePercentages.None? then Fatal(BadCachePercentages, [grpcAddr, httpAddr])
    else
      var (p0, p1) := f.cachePercentages.value;
      if o.w !in creatable then Fatal(WalDirFailed(o.w), [grpcAddr, httpAddr])
      else
      var kv := BaseKvOptions(o.w, CacheShare(p0, o.totalCache), CacheShare(p1, o.totalCache));
      var kv := if f.compressionLevel > 0 then kv.(zstdLevel := Some(f.compressionLevel)) else kv;
      match TablesMode(f.tables)
      case None => Fatal(BadTablesMode(f.tables), [grpcAddr, httpAddr])
      case Some(tm) =>
        match VlogMode(f.vlog)
        case None => Fatal(BadVlogMode(f.vlog), [grpcAddr, httpAddr])
        case Some(vm) =>
          Started(Config(o, grpcAddr, httpAddr,
                         kv.(tableLoadingMode := Some(tm), valueLogLoadingMode := Some(vm))))
  }

  /** The whole of the modelled part of `run`, as a function of its inputs. */
  function Startup(f: Flags, bindable: set<string>, creatable: set<string>): Outcome
  {
    match CheckFlags(f)
    case Some(e) => Fatal(e, [])
    case None =>
      var o := ReadOptions(f).(myAddr := DefaultMyAddr(f.my, f.portOffset));
      if GrpcAddr(f) !in bindable then Fatal(ListenFailed(GrpcAddr(f)), [])
      else if HttpAddr(f) !in bindable then Fatal(ListenFailed(HttpAddr(f)), [GrpcAddr(f)])
      else Configure(f, o, creatable, GrpcAddr(f), HttpAddr(f))
  }

  /** `mmap`, `ram` and `disk` name the three modes, and each mode is read back from its name. */
  lemma ModeNameRoundTrip(m: LoadingMode)
    ensures TablesMode(ModeName(m)) == Some(m)
    ensures VlogMode(ModeName(m)) == (if m == LoadToRAM then None else Some(m))
  {
  }

  /** The two cache shares never exceed the budget when the percentages add up to 100. */
  lemma CacheSplitWithinBudget(p0: int, p1: int, totalCacheMb: int)
    requires p0 >= 0 && p1 >= 0 && p0 + p1 == 100 && totalCacheMb >= 0
    ensures 0 <= CacheShare(p0, totalCacheMb) && 0 <= CacheShare(p1, totalCacheMb)
    ensures CacheShare(p0, totalCacheMb) + CacheShare(p1, totalCacheMb) <= totalCacheMb * MiB
  {
    var bytes := totalCacheMb * MiB;
    var b0, b1 := CacheShare(p0, totalCacheMb), CacheShare(p1, totalCacheMb);
    assert (b0 + b1) * 100 <= p0 * bytes + p1 * bytes;
    assert p0 * bytes + p1 * bytes == 100 * bytes;
  }

  function GrpcAddr(f: Flags): string { ListenAddr(BindAddr(f.bindall), PortZeroGrpc + f.portOffset) }
  function HttpAddr(f: Flags): string { ListenAddr(BindAddr(f.bindall), PortZeroHTTP + f.portOffset) }

  /** `run` gets through every modelled check exactly when each one passes. */
  lemma StartedIff(f: Flags, bindable: set<string>, creatable: set<string>)
    ensures Startup(f, bindable, creatable).Started? <==>
      NodeId(f.idx) != 0 && (f.eeBuild || f.enterpriseLicense == "") &&
      f.replicas > 0 && f.replicas % 2 == 1 && f.rebalanceInterval > 0 &&
      GrpcAddr(f) in bindable && HttpAddr(f) in bindable &&
      f.cacheMb >= 0 && f.cachePercentages.Some? && f.wal in creatable &&
      f.tables in {"mmap", "ram", "disk"} && f.vlog in {"mmap", "disk"}
  {
    if CheckFlags(f).None? {
      var o := ReadOptions(f).(myAddr := DefaultMyAddr(f.my, f.portOffset));
      if GrpcAddr(f) in bindable && HttpAddr(f) in bindable {
        assert Startup(f, bindable, creatable) == Configure(f, o, creatable, GrpcAddr(f), HttpAddr(f));
        ConfigureStartedIff(f, o, creatable, GrpcAddr(f), HttpAddr(f));
      }
    }
  }

  /**
   * After the listeners, `run` goes on exactly when the cache flags are valid,
   * the WAL directory can be created and both modes are valid.
   */
  lemma ConfigureStartedIff(f: Flags, o: Options, creatable: set<string>, grpcAddr: string, httpAddr: string)
    ensures Configure(f, o, creatable, grpcAddr, httpAddr).Started? <==>
      o.totalCache >= 0 && f.cachePercentages.Some? && o.w in creatable &&
      f.tables in {"mmap", "ram", "disk"} && f.vlog in {"mmap", "disk"}
  {
    if o.totalCache >= 0 && f.cachePercentages.Some? && o.w in creatable {
      assert TablesMode(f.tables).Some? <==> f.tables in {"mmap", "ram", "disk"};
      assert VlogMode(f.vlog).Some? <==> f.vlog in {"mmap", "disk"};
    }
  }

  /** idx 0 is fatal before any listener is opened, and only idx 0 is. */
  lemma IdxZeroFatal(f: Flags, bindable: set<string>, creatable: set<string>)
    requires -TwoTo63 <= f.idx < TwoTo63
    ensures Startup(f, bindable, creatable) == Fatal(IdxZero, []) <==> f.idx == 0
  {
  }

  /** Past the earlier checks, the replica count is fatal exactly when it is not positive and odd. */
  lemma ReplicasFatal(f: Flags, bindable: set<string>, creatable: set<string>)
    requires NodeId(f.idx) != 0 && (f.eeBuild || f.enterpriseLicense == "")
    ensures Startup(f, bindable, creatable) == Fatal(ReplicasNotOdd(f.replicas), []) <==>
      f.replicas <= 0 || f.replicas % 2 == 0
  {
  }

  /** Past the earlier checks, the rebalance interval is fatal exactly when it is not positive. */
  lemma RebalanceFatal(f: Flags, bindable: set<string>, creatable: set<string>)
    requires CheckFlags(f.(rebalanceInterval := 1)).None?
    ensures Startup(f, bindable, creatable) == Fatal(RebalanceNotPositive(f.rebalanceInterval), []) <==>
      f.rebalanceInterval <= 0
  {
  }

  /** A negative cache budget is fatal once the listeners are up, and only then. */
  lemma NegativeCacheFatal(f: Flags, bindable: set<string>, creatable: set<string>)
    requires CheckFlags(f).None? && GrpcAddr(f) in bindable && HttpAddr(f) in bindable
    ensures Startup(f, bindable, creatable) == Fatal(NegativeCache, [GrpcAddr(f), HttpAddr(f)]) <==> f.cacheMb < 0
  {
  }

  /**
   * Past the cache checks, a WAL directory that cannot be created is fatal
   * whatever the compression and loading-mode flags say, and only such a
   * directory is.
   */
  lemma WalDirFatal(f: Flags, bindable: set<string>, creatable: set<string>)
    requires CheckFlags(f).None? && GrpcAddr(f) in bindable && HttpAddr(f) in bindable
    requires f.cacheMb >= 0 && f.cachePercentages.Some?
    ensures Startup(f, bindable, creatable) == Fatal(WalDirFailed(f.wal), [GrpcAddr(f), HttpAddr(f)]) <==>
      f.wal !in creatable
  {
  }

  /** The gRPC and HTTP listener addresses always differ: their ports do. */
  lemma ListenersDistinct(f: Flags)
    ensures GrpcAddr(f) != HttpAddr(f)
  {
    var bind := BindAddr(f.bindall);
    ListenAddrRoundTrip(bind, PortZeroGrpc + f.portOffset);
    ListenAddrRoundTrip(bind, PortZeroHTTP + f.portOffset);
  }

  /** Which `run` step a fatal outcome comes from, with the listeners open at that point. */
  lemma FatalCases(f: Flags, bindable: set<string>, creatable: set<string>)
    requires Startup(f, bindable, creatable).Fatal?
    ensures var r := Startup(f, bindable, creatable);
      || (r.listeners == [] &&
          r.error in {IdxZero, LicenseOnOssBuild, ReplicasNotOdd(f.replicas), RebalanceNotPositive(f.rebalanceInterval)})
      || r == Fatal(ListenFailed(GrpcAddr(f)), [])
      || r == Fatal(ListenFailed(HttpAddr(f)), [GrpcAddr(f)])
      || (r.listeners == [GrpcAddr(f), HttpAddr(f)] &&
          r.error in {NegativeCache, BadCachePercentages, WalDirFailed(f.wal), BadTablesMode(f.tables), BadVlogMode(f.vlog)})
  {
    if CheckFlags(f).None? && GrpcAddr(f) in bindable && HttpAddr(f) in bindable {
      var o := ReadOptions(f).(myAddr := DefaultMyAddr(f.my, f.portOffset));
      assert Startup(f, bindable, creatable) == Configure(f, o, creatable, GrpcAddr(f), HttpAddr(f));
    }
  }

  /**
   * The listeners open at a fatal error: none for a rejected flag or a failed
   * gRPC bind, only the gRPC one when the HTTP bind fails, both for every
   * later error.
   */
  lemma FatalListeners(f: Flags, bindable: set<string>, creatable: set<string>)
    requires Startup(f, bindable, creatable).Fatal?
    ensures var r := Startup(f, bindable, creatable);
      (r.listeners == [] <==>
        (r.error.IdxZero? || r.error.LicenseOnOssBuild? || r.error.ReplicasNotOdd? ||
         r.error.RebalanceNotPositive? || r.error == ListenFailed(GrpcAddr(f)))) &&
      (r.listeners == [GrpcAddr(f)] <==> r.error == ListenFailed(HttpAddr(f)))
  {
    FatalCases(f, bindable, creatable);
    ListenersDistinct(f);
  }

  /** The listener addresses and the advertised address of a successful start. */
  lemma StartedAddresses(f: Flags, bindable: set<string>, creatable: set<string>)
    requires Startup(f, bindable, creatable).Started?
    ensures var c := Startup(f, bindable, creatable).config;
      var bind := BindAddr(f.bindall);
      (bind == "0.0.0.0" <==> f.bindall) && (bind == "localhost" <==> !f.bindall) &&
      SplitListenAddr(c.grpcAddr) == Some((bind, PortZeroGrpc + f.portOffset)) &&
      SplitListenAddr(c.httpAddr) == Some((bind, PortZeroHTTP + f.portOffset)) &&
      (f.my != "" ==> c.opts.myAddr == f.my) &&
      (f.my == "" ==> SplitListenAddr(c.opts.myAddr) == Some(("localhost", PortZeroGrpc + f.portOffset))) &&
      c.opts == ReadOptions(f).(myAddr := c.opts.myAddr)
  {
    var c := Startup(f, bindable, creatable).config;
    assert c.grpcAddr == GrpcAddr(f) && c.httpAddr == HttpAddr(f);
    assert c.opts == ReadOptions(f).(myAddr := DefaultMyAddr(f.my, f.portOffset));
    ListenAddrRoundTrip(BindAddr(f.bindall), PortZeroGrpc + f.portOffset);
    ListenAddrRoundTrip(BindAddr(f.bindall), PortZeroHTTP + f.portOffset);
  }

  /** The Badger options of a successful start. */
  lemma StartedKvOptions(f: Flags, bindable: set<string>, creatable: set<string>)
    requires Startup(f, bindable, creatable).Started?
    ensures var kv := Startup(f, bindable, creatable).config.kv;
      // compression is ZSTD at the given level exactly when the level is positive
      (kv.zstdLevel.Some? <==> f.compressionLevel > 0) &&
      (kv.zstdLevel.Some? ==> kv.zstdLevel.value == f.compressionLevel) &&
      // the loading modes are the named ones, and the value log is never loaded to RAM
      kv.tableLoadingMode.Some? && ModeName(kv.tableLoadingMode.value) == f.tables &&
      kv.valueLogLoadingMode.Some? && ModeName(kv.valueLogLoadingMode.value) == f.vlog &&
      kv.valueLogLoadingMode.value != LoadToRAM &&
      // the cache sizes are the two shares of the budget
      kv.blockCacheSize == CacheShare(f.cachePercentages.value.0, f.cacheMb) &&
      kv.indexCacheSize == CacheShare(f.cachePercentages.value.1, f.cacheMb) &&
      // the fixed settings of the write-ahead store
      kv.dir == f.wal && !kv.syncWrites && kv.truncate && !kv.loadBloomsOnOpen &&
      kv.valueLogFileSize == 64 * MiB
  {
  }

  /** The advertised address is a fixed point: defaulting twice changes nothing. */
  lemma DefaultMyAddrIdempotent(my: string, portOffset: int, otherOffset: int)
    ensures DefaultMyAddr(DefaultMyAddr(my, portOffset), otherOffset) == DefaultMyAddr(my, portOffset)
  {
  }

  /** The global `opts` after `run` has got as far as its inputs let it. */
  function OptionsAfterRun(f: Flags): Options
  {
    if CheckFlags(f).None? then ReadOptions(f).(myAddr := DefaultMyAddr(f.my, f.portOffset))
    else ReadOptions(f)
  }

  /** The process-wide options record that `run` assigns and then updates in place. */
  class Globals {
    var opts: Options

    constructor ()
      ensures opts == EmptyOptions
    {
      opts := EmptyOptions;
    }
  }

  /**
   * `run` up to opening the store: each fatal check returns at once; the
   * options are overwritten in place and the Badger options are built up one
   * field at a time, as in the source.
   */
  method Run(g: Globals, f: Flags, bindable: set<string>, creatable: set<string>) returns (outcome: Outcome)
    modifies g
    ensures outcome == Startup(f, bindable, creatable)
    ensures g.opts == OptionsAfterRun(f)
  {
    g.opts := ReadOptions(f);
    if g.opts.nodeId == 0 {
      assert CheckFlags(f) == Some(IdxZero);
      return Fatal(IdxZero, []);
    }
    if !f.eeBuild && f.enterpriseLicense != "" {
      assert CheckFlags(f) == Some(LicenseOnOssBuild);
      return Fatal(LicenseOnOssBuild, []);
    }
    if g.opts.numReplicas < 0 || GoRem(g.opts.numReplicas, 2) == 0 {
      assert CheckFlags(f) == Some(ReplicasNotOdd(g.opts.numReplicas));
      return Fatal(ReplicasNotOdd(g.opts.numReplicas), []);
    }
    if g.opts.rebalanceInterval <= 0 {
      assert CheckFlags(f) == Some(RebalanceNotPositive(g.opts.rebalanceInterval));
      return Fatal(RebalanceNotPositive(g.opts.rebalanceInterval), []);
    }
    assert CheckFlags(f) == None;

    var addr := "localhost";
    if g.opts.bindall {
      addr := "0.0.0.0";
    }
    if g.opts.myAddr == "" {
      g.opts := g.opts.(myAddr := ListenAddr("localhost", PortZeroGrpc + g.opts.portOffset));
    }
    assert g.opts == OptionsAfterRun(f);

    var grpcAddr := ListenAddr(addr, PortZeroGrpc + g.opts.portOffset);
    if grpcAddr !in bindable {
      return Fatal(ListenFailed(grpcAddr), []);
    }
    var httpAddr := ListenAddr(addr, PortZeroHTTP + g.opts.portOffset);
    if httpAddr !in bindable {
      return Fatal(ListenFailed(httpAddr), [grpcAddr]);
    }
    var listeners := [grpcAddr, httpAddr];
    assert Startup(f, bindable, creatable) == Configure(f, g.opts, creatable, grpcAddr, httpAddr);

    if g.opts.totalCache < 0 {
      return Fatal(NegativeCache, listeners);
    }
    if f.cachePercentages.None? {
      return Fatal(BadCachePercentages, listeners);
    }
    var cachePercent := f.cachePercentages.value;
    var blockCacheSz := GoQuot(cachePercent.0 * (g.opts.totalCache * MiB), 100);
    var indexCacheSz := GoQuot(cachePercent.1 * (g.opts.totalCache * MiB), 100);

    if g.opts.w !in creatable {
      return Fatal(WalDirFailed(g.opts.w), listeners);
    }

    var kvOpt := BaseKvOptions(g.opts.w, blockCacheSz, indexCacheSz);
    if f.compressionLevel > 0 {
      kvOpt := kvOpt.(zstdLevel := Some(f.compressionLevel));
    }

    if f.tables == "mmap" {
      kvOpt := kvOpt.(tableLoadingMode := Some(MemoryMap));
    } else if f.tables == "ram" {
      kvOpt := kvOpt.(tableLoadingMode := Some(LoadToRAM));
    } else if f.tables == "disk" {
      kvOpt := kvOpt.(tableLoadingMode := Some(FileIO));
    } else {
      return Fatal(BadTablesMode(f.tables), listeners);
    }
    if f.vlog == "mmap" {
      kvOpt := kvOpt.(valueLogLoadingMode := Some(MemoryMap));
    } else if f.vlog == "disk" {
      kvOpt := kvOpt.(valueLogLoadingMode := Some(FileIO));
    } else {
      return Fatal(BadVlogMode(f.vlog), listeners);
    }
    outcome := Started(Config(g.opts, grpcAddr, httpAddr, kvOpt));
  }
}

=== FILE: teardown.dfy ===
/**
 * The shutdown path of `run` (dgraph/cmd/zero/run.go:385-416): the teardown
 * goroutine that runs once the top-level closer fires, and what `run` itself
 * does once `Wait` returns, including its deferred calls. Each effect is an
 * event appended to the process trace; `SignalAndWait` and `Wait` are single
 * "completed" events rather than blocking calls.
 */
module Teardown {

  datatype Event =
    | CloseSignalChannel    // close(sdCh)
    | CloseHttpListener     // httpListener.Close()
    | StopRaft              // st.node.closer.SignalAndWait()
    | TrySnapshot(arg: int) // st.node.trySnapshot(0)
    | StopStore             // store.Closer.SignalAndWait()
    | CloseGrpcListener     // grpcListener.Close()
    | RemoveCidFile
    | Done                  // the deferred st.zero.closer.Done()
    | WaitReturned          // st.zero.closer.Wait() in run
    | CloseKv               // kv.Close()
    | StopVlogGC            // gcCloser.SignalAndWait()
    | FlushSentry

  /** The teardown goroutine's effects, in program order (run.go:387-406). */
  function TeardownSteps(): seq<Event>
  {
    [CloseSignalChannel, CloseHttpListener, StopRaft, TrySnapshot(0), StopStore,
     CloseGrpcListener, RemoveCidFile, Done]
  }

  /**
   * What `run` does after `Wait` returns (run.go:409-416): the explicit
   * `kv.Close()`, then its deferred calls last-in first-out: the value-log GC
   * closer (run.go:338), `kv.Close` again (run.go:334) and, when Sentry is
   * enabled, its flush (run.go:210).
   */
  function MainTail(sentryEnabled: bool): seq<Event>
  {
    [CloseKv, StopVlogGC, CloseKv] + (if sentryEnabled then [FlushSentry] else [])
  }

  /** The whole graceful shutdown, from the closer firing to `run` returning. */
  function ShutdownTrace(sentryEnabled: bool): seq<Event>
  {
    TeardownSteps() + [WaitReturned] + MainTail(sentryEnabled)
  }

  /** The position of the first `e` in `t`. */
  function IndexOf(t: seq<Event>, e: Event): (k: nat)
    requires e in t
    ensures k < |t| && t[k] == e && e !in t[..k]
  {
    if t[0] == e then 0
    else
      assert e in t[1..];
      var k := IndexOf(t[1..], e) + 1;
      assert t[..k] == [t[0]] + t[1..][..k - 1];
      k
  }

  /** Every occurrence of `a` comes before every occurrence of `b`. */
  ghost predicate AllBefore(t: seq<Event>, a: Event, b: Event)
  {
    forall i, j :: 0 <= i < |t| && 0 <= j < |t| && t[i] == a && t[j] == b ==> i < j
  }

  /** Every step of the teardown happens exactly once: no two steps are the same event. */
  lemma TeardownStepsOnce()
    ensures |TeardownSteps()| == 8
    ensures forall i, j :: 0 <= i < j < |TeardownSteps()| ==> TeardownSteps()[i] != TeardownSteps()[j]
  {
  }

  /** The teardown runs its steps strictly in order: each one before every later one. */
  lemma TeardownStrictlyOrdered()
    ensures forall i, j :: 0 <= i < j < |TeardownSteps()| ==>
      AllBefore(TeardownSteps(), TeardownSteps()[i], TeardownSteps()[j])
  {
    var t := TeardownSteps();
    assert forall i, j :: 0 <= i < |t| && 0 <= j < |t| && i != j ==> t[i] != t[j];
  }

  /** Splitting a trace: `a` stays before `b` when no `a` follows the split and no `b` precedes it. */
  lemma AllBeforeSplit(front: seq<Event>, back: seq<Event>, a: Event, b: Event)
    requires a !in back && b !in front
    ensures AllBefore(front + back, a, b)
  {
  }

  /** The first `e` of a trace whose front holds none lies in its back. */
  lemma {:induction false} IndexOfSplit(front: seq<Event>, back: seq<Event>, e: Event)
    requires e !in front && e in back
    ensures e in front + back && IndexOf(front + back, e) == |front| + IndexOf(back, e)
  {
    if front != [] {
      assert (front + back)[0] == front[0] != e;
      assert (front + back)[1..] == front[1..] + back;
      IndexOfSplit(front[1..], back, e);
    } else {
      assert front + back == back;
    }
  }

  /** The shutdown trace around its one snapshot: no snapshot before it or after it. */
  lemma AroundSnapshot(sentryEnabled: bool) returns (front: seq<Event>, back: seq<Event>)
    ensures ShutdownTrace(sentryEnabled) == front + ([TrySnapshot(0)] + back) && |front| == 3
    ensures StopRaft in front && StopRaft !in back && StopStore !in front && StopStore in back
    ensures forall i :: 0 <= i < |front| ==> !front[i].TrySnapshot?
    ensures forall i :: 0 <= i < |back| ==> !back[i].TrySnapshot?
  {
    front := [CloseSignalChannel, CloseHttpListener, StopRaft];
    back := [StopStore, CloseGrpcListener, RemoveCidFile, Done, WaitReturned] + MainTail(sentryEnabled);
    assert TeardownSteps() == front + [TrySnapshot(0)] + [StopStore, CloseGrpcListener, RemoveCidFile, Done];
  }

  /** Exactly one snapshot is attempted, the fourth step, with argument 0. */
  lemma SnapshotOnce(sentryEnabled: bool)
    ensures ShutdownTrace(sentryEnabled)[3] == TrySnapshot(0)
    ensures forall i :: 0 <= i < |ShutdownTrace(sentryEnabled)| && ShutdownTrace(sentryEnabled)[i].TrySnapshot? ==> i == 3
  {
    var front, back := AroundSnapshot(sentryEnabled);
  }

  /** The snapshot is taken after Raft has stopped and before the Raft store stops. */
  lemma SnapshotBetweenRaftAndStore(sentryEnabled: bool)
    ensures AllBefore(ShutdownTrace(sentryEnabled), StopRaft, TrySnapshot(0))
    ensures AllBefore(ShutdownTrace(sentryEnabled), TrySnapshot(0), StopStore)
    ensures AllBefore(ShutdownTrace(sentryEnabled), StopRaft, StopStore)
  {
    var front, back := AroundSnapshot(sentryEnabled);
    assert TrySnapshot(0) !in front && TrySnapshot(0) !in back;
    AllBeforeSplit(front, [TrySnapshot(0)] + back, StopRaft, TrySnapshot(0));
    AllBeforeSplit(front, [TrySnapshot(0)] + back, StopRaft, StopStore);
    assert front + ([TrySnapshot(0)] + back) == (front + [TrySnapshot(0)]) + back;
    AllBeforeSplit(front + [TrySnapshot(0)], back, TrySnapshot(0), StopStore);
  }

  /**
   * The store is closed only after the teardown has finished and `Wait` has
   * returned, so after the Raft store has stopped.
   */
  lemma KvClosedAfterWait(sentryEnabled: bool)
    ensures CloseKv in ShutdownTrace(sentryEnabled)
    ensures AllBefore(ShutdownTrace(sentryEnabled), Done, WaitReturned)
    ensures AllBefore(ShutdownTrace(sentryEnabled), WaitReturned, CloseKv)
    ensures AllBefore(ShutdownTrace(sentryEnabled), Done, CloseKv)
    ensures AllBefore(ShutdownTrace(sentryEnabled), StopStore, CloseKv)
  {
    var tail := MainTail(sentryEnabled);
    assert ShutdownTrace(sentryEnabled) == TeardownSteps() + ([WaitReturned] + tail);
    assert ShutdownTrace(sentryEnabled) == (TeardownSteps() + [WaitReturned]) + tail;
    assert tail[0] == CloseKv;
    AllBeforeSplit(TeardownSteps(), [WaitReturned] + tail, Done, WaitReturned);
    AllBeforeSplit(TeardownSteps() + [WaitReturned], tail, WaitReturned, CloseKv);
    AllBeforeSplit(TeardownSteps() + [WaitReturned], tail, Done, CloseKv);
    AllBeforeSplit(TeardownSteps() + [WaitReturned], tail, StopStore, CloseKv);
  }

  /**
   * The explicit `kv.Close()` (run.go:412) runs before the deferred
   * `gcCloser.SignalAndWait()` (run.go:338), so the value-log GC goroutine is
   * still running when the store is first closed; the deferred `kv.Close()`
   * (run.go:334) then closes the store a second time.
   */
  lemma KvClosedBeforeGcStopped(sentryEnabled: bool)
    ensures var t := ShutdownTrace(sentryEnabled);
      CloseKv in t && StopVlogGC in t && IndexOf(t, CloseKv) < IndexOf(t, StopVlogGC)
    ensures var t := ShutdownTrace(sentryEnabled);
      StopVlogGC in t && CloseKv in t[IndexOf(t, StopVlogGC) + 1..]
  {
    var front := TeardownSteps() + [WaitReturned];
    var tail := [CloseKv, StopVlogGC, CloseKv] + (if sentryEnabled then [FlushSentry] else []);
    var t := front + tail;
    assert ShutdownTrace(sentryEnabled) == t;
    assert CloseKv !in front && StopVlogGC !in front by {
      assert front == [CloseSignalChannel, CloseHttpListener, StopRaft, TrySnapshot(0), StopStore,
                       CloseGrpcListener, RemoveCidFile, Done, WaitReturned];
    }
    assert tail[0] == CloseKv && tail[1] == StopVlogGC;
    IndexOfSplit(front, tail, CloseKv);
    IndexOfSplit(front, tail, StopVlogGC);
    assert IndexOf(t, StopVlogGC) == |front| + 1;
    assert t[|front| + 2..][0] == CloseKv;
  }

  /** The process, seen through the effects of its shutdown path. */
  class Process {
    var trace: seq<Event>

    constructor ()
      ensures trace == []
    {
      trace := [];
    }

    method Emit(e: Event)
      modifies this
      ensures trace == old(trace) + [e]
    {
      trace := trace + [e];
    }

    /** The teardown goroutine, from the closer firing (run.go:387-406). */
    method Teardown()
      modifies this
      ensures trace == old(trace) + TeardownSteps()
    {
      Emit(CloseSignalChannel);
      Emit(CloseHttpListener);
      Emit(StopRaft);
      Emit(TrySnapshot(0));
      Emit(StopStore);
      Emit(CloseGrpcListener);
      Emit(RemoveCidFile);
      Emit(Done);     // deferred at run.go:388
    }

    /** `run` after the closer is fully stopped, through its deferred calls (run.go:409-416). */
    method FinishRun(sentryEnabled: bool)
      modifies this
      ensures trace == old(trace) + [WaitReturned] + MainTail(sentryEnabled)
    {
      Emit(WaitReturned);
      Emit(CloseKv);
      // deferred calls, last registered first
      Emit(StopVlogGC);
      Emit(CloseKv);
      if sentryEnabled {
        Emit(FlushSentry);
      }
    }

    /** A graceful shutdown: the teardown completes before `Wait` returns in `run`. */
    method Shutdown(sentryEnabled: bool)
      modifies this
      ensures trace == old(trace) + ShutdownTrace(sentryEnabled)
    {
      Teardown();
      FinishRun(sentryEnabled);
    }
  }
}

=== FILE: wrappers.dfy ===
/** Optional values, used for lookups and parses that can fail. */
module Wrappers {
  datatype Option<+T> = None | Some(value: T)
}
